=== FILE: README.md ===
# Rotated-digit scene placement and annotation, modelled in Dafny

This project models the placement and annotation logic of a generator of
synthetic training images. The generator draws random coloured polygons as a
background. It then pastes up to `num_numbers` randomly rotated single-digit
glyphs onto the background and writes one label line per glyph it keeps.

The modelled core has five parts:

- **Collision test** (`Geometry.CheckCollision`). This is the separating-axis
  test on two `(xmin, ymin, xmax, ymax)` boxes. Only strict comparisons
  separate two boxes, so boxes that touch collide.
- **Glyph bookkeeping** (`Glyph.DescriptorOf`, `Glyph.GenerateGlyph`). The raster
  library gives the opaque-pixel box of the rotated glyph image. From it the
  code takes the extent (width and height) and the centre (the box's
  midpoint). A blank image has no box, and the code then fails.
- **Scene composer** (`Scene.Attempt`, `Scene.Compose`, `Scene.OverlayRotatedNumbers`).
  For each attempt it draws a top-left position in
  `[20, 640 - width - 20] x [20, 640 - height - 20]`. A range that is empty
  makes the position draw fail. The attempt is skipped when the collision
  test fires against any earlier annotation. Otherwise the composer records
  `(digit, x + xCenter, y + yCenter, width, height, angle)`.
- **Collision quirk.** The collision test is handed each stored annotation
  itself, not a box. After the float coercion it reads the annotation's
  first four fields, so it sees `(digit, xCenter, yCenter, width)`. The model
  keeps that reading (`Scene.ReadAsBox`). It does not claim that accepted
  glyphs are pairwise apart, and the Findings section below shows that they
  need not be.
- **Label normaliser** (`Labels.Normalize`, `Labels.Line`). Centre and extent
  become fractions of the 640 x 640 canvas, clamped to `[0, 1]`. The angle
  becomes a fraction of 360 and is not clamped. Fields are written in the
  order digit, x, y, w, h, angle.

The rectangle-corner helper `get_rectangle_corners` is modelled as
`Geometry.GetRectangleCorners`.

## How randomness and the raster library are modelled

Every random draw of one attempt is an explicit input, a `Scene.Draw`: the
digit, the font size, the angle, and the position `x` and `y`. The raster
library's answer for that attempt is an input too: the bounding box of the
rotated image, or `None`. Preconditions (`Scene.ValidDraw`) keep each draw
within its inclusive range:

- the digit is in `0..9`;
- the font size is in `50..150`;
- the angle is in `0..360`;
- each position lies in its range whenever that range is non-empty.

A present bounding box is non-empty. An empty position range, or a missing
box, is an error result (`Canvas.Error`). It is never a precondition.

## Behaviour worth knowing

- The angle is drawn with `randint(0, 360)` (main.py:59), whose upper end is
  inclusive. So 360 can be drawn, and the normalised angle can be exactly 1
  (`Labels.AngleFractionInUnitInterval`).
- The collision test is handed each stored annotation, not its box
  (main.py:87). It reads the annotation's first four fields as a box
  (main.py:98-101). So accepted glyphs can overlap (see Findings).
- The position ranges (main.py:83-84) keep the margins for the candidate box
  `(x, y, x+w, y+h)`. The glyph's opaque box, however, sits at
  `x + bbox.left`, `y + bbox.upper` inside the pasted image (main.py:91-92).
  The box an annotation records is the candidate shifted by that offset
  (`Scene.RecordedBoxIsShiftedCandidate`), so it can reach past the canvas
  edge (`Scene.RecordedBoxMayLeaveCanvas`). The label clamp (main.py:187-190)
  changes such a record only when its centre leaves the canvas. Otherwise the
  label's box reaches past 1 (`Labels.LabelBoxMayLeaveUnitSquare`).

## Model

| member | source | states |
|---|---|---|
| Geometry.CheckCollision | main.py:96-101 | for well-formed boxes, a collision happens exactly when the closed boxes share a point (both directions); for any four numbers on each side, a collision means the closed x-intervals and y-intervals meet |
| Geometry.CollisionSymmetric | main.py:101 | the test gives the same answer with its arguments swapped, for any four numbers on each side |
| Geometry.TouchingBoxesCollide | main.py:101 | well-formed boxes where one's right edge equals the other's left edge, with meeting y-ranges, collide |
| Geometry.GapMeansNoCollision | main.py:101 | a strict gap on either axis means no collision |
| Geometry.SelfCollision | main.py:101 | a box with min <= max on both axes collides with itself |
| Geometry.GetRectangleCorners | main.py:124-134 | four corners in top-left, top-right, bottom-right, bottom-left order: consecutive corners share an edge, the edges have the given extent, and the centre bisects both diagonals |
| Geometry.CenterBox | main.py:124-134 | the box spanned by the top-left and bottom-right corners has the given extent and centre, and is well-formed for non-negative extent |
| Geometry.CornersOfBoxCenter | main.py:124-134 | converting a box to centre and extent and back to corners gives the box's own corners |
| Glyph.DescriptorOf | main.py:64-67 | extent is positive; centre plus or minus half the extent gives back both edges of the bounding box, so the centre lies strictly inside it |
| Glyph.GenerateGlyph | main.py:43-69 | fails with the blank-glyph error exactly when the rotated image has no bounding box; otherwise gives that box's extent and midpoint (`DescriptorOf`) with the drawn angle |
| Glyph.DescriptorCornersAreBoxCorners | main.py:64-67 | the rectangle with the descriptor's centre and extent has exactly the bounding box's four corners |
| Scene.Candidate | main.py:83-87 | the candidate box is well-formed and, with the margins, lies inside the canvas |
| Scene.Placed | main.py:92 | the recorded annotation keeps digit and angle, has positive extent, and its centre lies inside the glyph's opaque box placed at (x, y) |
| Scene.RangeNonEmpty | main.py:83-84 | the position range `[20, side - extent - 20]` is non-empty; when it is empty the position draw raises |
| Scene.ReadAsBox | main.py:98-101 | the stored annotation as the collision test reads it: its first four fields as numbers, so the "box" is (digit, xCenter, yCenter, width) |
| Scene.Attempts | main.py:79 | the number of iterations of `range(num_numbers)`: `num_numbers`, or 0 when it is negative |
| Scene.CollidesWithAny | main.py:87 | the `any` scan is true exactly when some earlier annotation, read as (digit, xCenter, yCenter, width), collides with the candidate |
| Scene.ScanForCollision | main.py:87 | the scan loop reports a collision exactly when the acceptance condition fails |
| Scene.Attempt | main.py:80-92 | succeeds exactly when the glyph has a box and both position ranges are non-empty; a missing box gives the blank-glyph error, an empty x range the x error, and an empty y range (with a non-empty x range) the y error; appends zero or one entry and keeps earlier ones; appends exactly when the collision test is false against every earlier annotation read as (digit, xCenter, yCenter, width); an appended entry is the placed annotation, and its position kept the margins |
| Scene.AttemptAppends | main.py:86-92 | a fitting attempt that passes the acceptance condition appends exactly its own annotation |
| Scene.AttemptSkips | main.py:86-89 | a fitting attempt that fails the acceptance condition leaves the list unchanged |
| Scene.ComposeFrom | main.py:79-94 | the loop succeeds exactly when every attempt fits; the result extends the starting list by at most one entry per attempt |
| Scene.Compose | main.py:74-94 | zero (or negative) requested glyphs give an empty list; the result has at most `num_numbers` entries; success exactly when every attempt fits |
| Scene.ComposeSplit | main.py:79-94 | running the loop over a prefix of the attempts and then over the rest equals running it over all of them |
| Scene.EarlierEntriesKept | main.py:79-94 | the list after the first k attempts is a prefix of the final list and has at most k entries |
| Scene.AnnotationsComeFromDraws | main.py:83-92 | every recorded annotation is the placed annotation of some attempt whose position kept the margins |
| Scene.RecordedBoxIsShiftedCandidate | main.py:83-92 | the box an annotation records is the candidate box shifted by the bounding box's origin inside the glyph image |
| Scene.RecordedBoxMayLeaveCanvas | main.py:83-92 | an accepted attempt with a valid draw (a digit 1 rotated by 270 degrees, placed at the right end of its x range) records a box that reaches past the canvas's right edge while its centre stays on the canvas |
| Scene.OverlayRotatedNumbers | main.py:74-94 | the loop with an early exit and an inner scan computes exactly `Compose`, with at most `num_numbers` entries |
| Labels.Clamp01 | main.py:187-190 | the result lies in [0, 1]; values already in [0, 1] pass unchanged; values below 0 give 0 and values above 1 give 1 |
| Labels.ClampIdempotent | main.py:187-190 | clamping twice is clamping once |
| Labels.ClampMonotone | main.py:187-190 | clamping keeps the order of its inputs |
| Labels.Normalize | main.py:186-193 | the four geometric fractions lie in [0, 1]; inside the canvas they scale back to the pixel values; below zero they are 0 and past the far edge they are 1; the angle fraction times 360 is the angle |
| Labels.AngleFractionInUnitInterval | main.py:193 | an angle from the inclusive range [0, 360] gives a fraction in [0, 1]: exactly 1 for 360, below 1 otherwise |
| Labels.SceneAnnotationsNormalizeExactly | main.py:184-193 | for every annotation the composer records, the width and height fractions are never clamped, the centre fractions are positive, and the angle fraction is in [0, 1] |
| Labels.LabelBoxMayLeaveUnitSquare | main.py:186-193 | for that accepted attempt neither fraction is clamped, so the label's box reaches past 1 on the x axis |
| Labels.Line | main.py:194 | the fields of a label line read back to the normalised annotation, with the digit first |
| Labels.LabelLines | main.py:184-195 | one line per annotation, in order, and each line reads back to that annotation's normalisation |
| CorrectedScene.GlyphBoxOnCanvas | main.py:91-92 | the glyph's opaque box where it is pasted is exactly the box its annotation records |
| CorrectedScene.AttemptCorrected | main.py:86-92 | as `Scene.Attempt`, but it appends exactly when the glyph's box meets no earlier recorded box, so the recorded boxes stay pairwise apart |
| CorrectedScene.AttemptCorrectedSkips | main.py:86-89 | a fitting attempt of the corrected loop whose box meets an earlier recorded box changes nothing |
| CorrectedScene.ComposeFromCorrected | main.py:79-94 | the corrected loop keeps recorded boxes pairwise apart, succeeds exactly when every attempt fits, and only extends the list |
| CorrectedScene.ComposeCorrected | main.py:74-94 | the corrected composer's recorded boxes are pairwise apart, with at most `num_numbers` entries |
| CorrectedScene.AsWrittenAcceptsOverlap | main.py:87 | two identical attempts whose candidate top edge lies below the glyph width are both recorded by the loop as written, and the two recorded boxes collide |
| CorrectedScene.CorrectedRejectsOverlap | main.py:87 | on two identical attempts the corrected loop records only the first |
| CorrectedScene.TwinDrawOverlaps | main.py:87 | a glyph of the digit 5 with a 22 x 36 opaque box offset (2, 11) in its image, placed at (100, 100), is a valid input meeting the overlap condition |

## Findings

| source | as written | input that shows it | evidently intended | confidence | as-written member | corrected member |
|---|---|---|---|---|---|---|
| main.py:87 | each earlier annotation `(digit, x_center, y_center, width, height, angle)` is passed to `check_collision` as its second box, which reads it as `(digit, x_center, y_center, width)` | any attempt that fits and whose candidate top edge `y` exceeds the glyph width, drawn twice: the second candidate lies below the "box" `(digit, x_center, y_center, width)`, so both copies are recorded on top of each other. Since `y >= 20`, nearly every glyph qualifies; one instance is the digit 5 with a 22 x 36 opaque box offset (2, 11) in its image, placed at (100, 100) twice | the new glyph is tested against the boxes of the glyphs already placed, so the accepted glyphs do not overlap | high (not executed) | CorrectedScene.AsWrittenAcceptsOverlap | CorrectedScene.ComposeCorrected |

The corrected composer compares the new glyph's opaque box on the canvas with
each earlier annotation's recorded box (its centre plus or minus half its
extent). `Scene.Compose` stays the model of the code as written. The label
normaliser applies to the output of either composer.

## Left out

- Rendering by the raster library is left out: font loading, the text's
  bounding box, the text-height doubling, the rotation with `expand=True`,
  and pasting with alpha (main.py:47-61, 91). Each attempt's bounding box of
  the rotated image is an input, and the composited image is not modelled.
- Random number generation is left out. Every draw is an input constrained to
  its inclusive range. The font size is carried only with its range, because
  its effect reaches the model through the raster library's bounding box.
- The background polygons (`generate_polygon`, `generate_polygon_background`)
  are left out. They are pure raster drawing, and the retry loop for a
  non-black colour is unbounded rejection sampling.
- `rotate_point` and `rotated_rect_coordinates` are left out. They use
  trigonometry in floating point and serve only the visualisation.
- `draw_rotated_bounding_boxes` is left out, as a plotting user interface.
- The batch loop in `__main__` is left out: directory creation, image saving,
  file writing, and the `randint(2, 5)` choice of `num_numbers`. So is the
  decimal text of each number on a label line; a line is modelled as its
  fields.
- Floating-point rounding is left out. Values are exact reals. The quantities
  involved are integers and halves of integers far below 2^53, for which
  `float()` and division by 2 are exact. Division by 640 and by 360 is
  modelled as exact.
- Labels.Normalize: division by 640 and 360 is exact here, whereas the code
  rounds it to the nearest double.

=== FILE: canvas.dfy ===
/** The fixed configuration of the generator and the error outcomes of one scene.

    The canvas is WIDTH x HEIGHT pixels; glyphs keep MARGIN pixels from every
    edge; font sizes and rotation angles are drawn from inclusive ranges.
 */
module Canvas {

  const WIDTH: int := 640
  const HEIGHT: int := 640
  const MARGIN: int := 20

  /** Default `font_size_range` of the glyph generator, both ends inclusive. */
  const FONT_MIN: int := 50
  const FONT_MAX: int := 150

  /** Rotation angles are drawn with an inclusive upper end, so 360 can occur. */
  const ANGLE_MAX: int := 360

  /** Which coordinate's position draw failed. */
  datatype Axis = X | Y

  /** The ways one call of the scene composer can abort.
      - EmptyGlyph: the rotated glyph image has no opaque pixel, so its
        bounding box is absent and indexing it raises.
      - EmptyRange: the glyph is too large for the canvas minus the margins,
        so the position draw is asked for an empty range and raises. */
  datatype Error = EmptyGlyph | EmptyRange(axis: Axis)
}

=== FILE: corrected.dfy ===
/** The placement loop with the collision test applied to boxes on both
    sides, and the input that shows the loop as written does not keep the
    accepted glyphs apart.

    As written, each earlier annotation is passed to the collision test in
    place of its box, and the test reads it as (digit, xCenter, yCenter,
    width). The corrected loop compares the new glyph's opaque box on the
    canvas with the box each earlier annotation records (centre plus or
    minus half the extent), which is the same box for the same glyph, and
    so the accepted glyphs' boxes are pairwise apart.
 */
module CorrectedScene {
  import opened Canvas
  import opened Results
  import opened Geometry
  import opened Glyph
  import opened Scene

  /** The box an annotation records: its centre plus or minus half its extent. */
  function AnnotationBox(a: Annotation): Box {
    CenterBox(a.xCenter, a.yCenter, a.width as real, a.height as real)
  }

  /** The glyph's opaque box where the attempt would paste it. */
  function GlyphBoxOnCanvas(d: Draw): (b: Box)
    requires ValidDraw(d) && Fits(d)
    // it is exactly the box the placed annotation records
    ensures b == AnnotationBox(Placed(d))
    ensures WellFormed(b)
  {
    var p := d.glyph.bbox.value;
    Box((d.x + p.left) as real, (d.y + p.upper) as real, (d.x + p.right) as real, (d.y + p.lower) as real)
  }

  /** No two recorded boxes collide. */
  predicate PairwiseApart(anns: seq<Annotation>) {
    forall i, j | 0 <= i < j < |anns| :: !CheckCollision(AnnotationBox(anns[i]), AnnotationBox(anns[j]))
  }

  /** One attempt of the corrected loop. */
  function AttemptCorrected(anns: seq<Annotation>, d: Draw): (r: Result<seq<Annotation>, Error>)
    requires ValidDraw(d)
    ensures r.Ok? <==> Fits(d)
    ensures r.Ok? ==> anns <= r.value && |anns| <= |r.value| <= |anns| + 1
    ensures r.Ok? ==> (|r.value| == |anns| + 1 <==>
                       forall i | 0 <= i < |anns| :: !CheckCollision(GlyphBoxOnCanvas(d), AnnotationBox(anns[i])))
    ensures r.Ok? && |r.value| == |anns| + 1 ==> r.value[|anns|] == Placed(d)
    ensures r.Ok? && PairwiseApart(anns) ==> PairwiseApart(r.value)
  {
    match GenerateGlyph(d.glyph)
    case Err(e) => Err(e)
    case Ok(desc) =>
      if !RangeNonEmpty(WIDTH, desc.width) then Err(EmptyRange(X))
      else if !RangeNonEmpty(HEIGHT, desc.height) then Err(EmptyRange(Y))
      else if exists i | 0 <= i < |anns| :: CheckCollision(GlyphBoxOnCanvas(d), AnnotationBox(anns[i])) then Ok(anns)
      else
        var r := anns + [Placed(d)];
        assert PairwiseApart(anns) ==> PairwiseApart(r) by {
          if PairwiseApart(anns) {
            forall i, j | 0 <= i < j < |r|
              ensures !CheckCollision(AnnotationBox(r[i]), AnnotationBox(r[j]))
            {
              if j == |anns| {
                CollisionSymmetric(GlyphBoxOnCanvas(d), AnnotationBox(anns[i]));
              }
            }
          }
        }
        Ok(r)
  }

  /** The corrected loop over the remaining attempts. */
  function ComposeFromCorrected(anns: seq<Annotation>, draws: seq<Draw>): (r: Result<seq<Annotation>, Error>)
    requires ValidDraws(draws)
    ensures r.Ok? <==> AllFit(draws)
    ensures r.Ok? ==> anns <= r.value && |r.value| <= |anns| + |draws|
    ensures r.Ok? && PairwiseApart(anns) ==> PairwiseApart(r.value)
    decreases |draws|
  {
    if |draws| == 0 then Ok(anns)
    else
      match AttemptCorrected(anns, draws[0])
      case Err(e) => Err(e)
      case Ok(next) =>
        var r := ComposeFromCorrected(next, draws[1..]);
        AllFitCons(draws);
        r
  }

  /** The corrected composer: the accepted glyphs' boxes are pairwise apart. */
  function ComposeCorrected(numNumbers: int, draws: seq<Draw>): (r: Result<seq<Annotation>, Error>)
    requires |draws| == Attempts(numNumbers) && ValidDraws(draws)
    ensures numNumbers <= 0 ==> r == Ok([])
    ensures r.Ok? <==> AllFit(draws)
    ensures r.Ok? ==> |r.value| <= Attempts(numNumbers) && PairwiseApart(r.value)
  {
    ComposeFromCorrected([], draws)
  }

  /** An attempt of the corrected loop that fits and whose box meets an
      earlier recorded box leaves the annotations as they were. */
  lemma AttemptCorrectedSkips(anns: seq<Annotation>, d: Draw, i: nat)
    requires ValidDraw(d) && Fits(d) && i < |anns|
    requires CheckCollision(GlyphBoxOnCanvas(d), AnnotationBox(anns[i]))
    ensures AttemptCorrected(anns, d) == Ok(anns)
  {
    var r := AttemptCorrected(anns, d);
    assert r.value == anns;
  }

  /** Two identical attempts whose candidate's top edge lies below the
      glyph's width: the loop as written records the glyph twice, because
      it reads the first annotation as a box whose bottom edge is that width,
      and the two recorded boxes coincide. */
  lemma {:induction false} AsWrittenAcceptsOverlap(d: Draw)
    requires ValidDraw(d) && Fits(d)
    requires Candidate(d).ymin > Placed(d).width as real
    ensures Compose(2, [d, d]) == Ok([Placed(d), Placed(d)])
    ensures !PairwiseApart([Placed(d), Placed(d)])
  {
    var a := Placed(d);
    var none: seq<Annotation> := [];
    AttemptAppends(none, d);
    assert none + [a] == [a];
    assert !CheckCollision(Candidate(d), ReadAsBox([a][0]));
    AttemptAppends([a], d);
    assert [a] + [a] == [a, a];
    assert [d, d][1..] == [d];
    assert [d][1..] == [];
    assert ComposeFrom([a], [d]) == Ok([a, a]);
    SelfCollision(GlyphBoxOnCanvas(d));
  }

  /** On two identical attempts the corrected loop keeps only the first. */
  lemma {:induction false} CorrectedRejectsOverlap(d: Draw)
    requires ValidDraw(d) && Fits(d)
    ensures ComposeCorrected(2, [d, d]) == Ok([Placed(d)])
  {
    var a := Placed(d);
    var r0 := AttemptCorrected([], d);
    assert r0.value == [a];
    SelfCollision(GlyphBoxOnCanvas(d));
    AttemptCorrectedSkips([a], d, 0);
    assert [d, d][1..] == [d];
    assert [d][1..] == [];
    assert ComposeFromCorrected([a], [d]) == Ok([a]);
  }

  /** A glyph of the digit 5 whose opaque box is 22 x 36 pixels, offset
      (2, 11) from its image origin, with the image's top-left corner at
      (100, 100), is such an input: its candidate's top edge, 100, lies
      below 22. */
  lemma TwinDrawOverlaps()
    ensures var d := Draw(GlyphDraw(5, 50, 0, Some(PixelBox(2, 11, 24, 47))), 100, 100);
            && ValidDraw(d) && Fits(d)
            && Candidate(d).ymin > Placed(d).width as real
  {
  }
}

=== FILE: geometry.dfy ===
/** Axis-aligned boxes, the collision test used for placement, and the
    corners of an axis-aligned rectangle given by centre and extent.

    Every coordinate is a `real`: the collision test coerces all of its
    inputs to floating point, and centres are halves of integer extents.
 */
module Geometry {

  /** A box read as (xmin, ymin, xmax, ymax). Nothing forces min <= max:
      the collision test is applied to whatever four numbers it is given. */
  datatype Box = Box(xmin: real, ymin: real, xmax: real, ymax: real)

  datatype Point = Point(x: real, y: real)

  /** Min does not exceed max on either axis. */
  predicate WellFormed(b: Box) {
    b.xmin <= b.xmax && b.ymin <= b.ymax
  }

  /** The point lies in the closed box. */
  predicate Contains(b: Box, p: Point) {
    b.xmin <= p.x <= b.xmax && b.ymin <= p.y <= b.ymax
  }

  /** The separating-axis collision test. Only strict comparisons separate,
      so boxes that share an edge or a corner collide. */
  function CheckCollision(a: Box, b: Box): (r: bool)
    // for well-formed boxes: a collision exactly when the closed boxes share a point
    ensures WellFormed(a) && WellFormed(b) ==> (r <==> exists p :: Contains(a, p) && Contains(b, p))
    // for any four numbers on each side: the closed x- and y-intervals meet
    ensures r ==> a.xmin <= b.xmax && b.xmin <= a.xmax && a.ymin <= b.ymax && b.ymin <= a.ymax
  {
    var r := !(a.xmax < b.xmin || a.xmin > b.xmax || a.ymax < b.ymin || a.ymin > b.ymax);
    // the lower-left corner of the intersection is a common point
    var p := Point(if a.xmin < b.xmin then b.xmin else a.xmin,
                   if a.ymin < b.ymin then b.ymin else a.ymin);
    assert WellFormed(a) && WellFormed(b) && r ==> Contains(a, p) && Contains(b, p);
    r
  }

  /** The test gives the same answer whichever box comes first, for any four
      numbers on each side. */
  lemma CollisionSymmetric(a: Box, b: Box)
    ensures CheckCollision(a, b) == CheckCollision(b, a)
  {
  }

  /** A box whose right edge equals the other's left edge collides with it
      when their vertical extents meet. */
  lemma TouchingBoxesCollide(a: Box, b: Box)
    requires a.xmax == b.xmin
    requires WellFormed(a) && WellFormed(b)
    requires a.ymin <= b.ymax && b.ymin <= a.ymax
    ensures CheckCollision(a, b)
  {
  }

  /** A gap on either axis means no collision. */
  lemma GapMeansNoCollision(a: Box, b: Box)
    requires a.xmax < b.xmin || a.xmin > b.xmax || a.ymax < b.ymin || a.ymin > b.ymax
    ensures !CheckCollision(a, b)
  {
  }

  /** A well-formed box collides with itself. */
  lemma SelfCollision(a: Box)
    requires WellFormed(a)
    ensures CheckCollision(a, a)
  {
  }

  /** The four corners of the axis-aligned rectangle with the given centre
      and extent, in the order top-left, top-right, bottom-right,
      bottom-left (y grows downwards). */
  function GetRectangleCorners(xCenter: real, yCenter: real, width: real, height: real): (c: seq<Point>)
    ensures |c| == 4
    // consecutive corners share an edge: top, right, bottom, left
    ensures c[0].y == c[1].y && c[1].x == c[2].x && c[2].y == c[3].y && c[3].x == c[0].x
    // the top and left edges have the requested extent
    ensures c[1].x - c[0].x == width && c[3].y - c[0].y == height
    // both diagonals are bisected by the centre
    ensures c[0].x + c[2].x == 2.0 * xCenter && c[0].y + c[2].y == 2.0 * yCenter
    ensures c[1].x + c[3].x == 2.0 * xCenter && c[1].y + c[3].y == 2.0 * yCenter
  {
    var halfWidth := width / 2.0;
    var halfHeight := height / 2.0;
    [ Point(xCenter - halfWidth, yCenter - halfHeight),
      Point(xCenter + halfWidth, yCenter - halfHeight),
      Point(xCenter + halfWidth, yCenter + halfHeight),
      Point(xCenter - halfWidth, yCenter + halfHeight) ]
  }

  /** The box spanned by the top-left and bottom-right corners of a rectangle
      given by centre and extent. */
  function CenterBox(xCenter: real, yCenter: real, width: real, height: real): (b: Box)
    ensures width >= 0.0 && height >= 0.0 ==> WellFormed(b)
    ensures b.xmax - b.xmin == width && b.ymax - b.ymin == height
    ensures b.xmin + b.xmax == 2.0 * xCenter && b.ymin + b.ymax == 2.0 * yCenter
  {
    var c := GetRectangleCorners(xCenter, yCenter, width, height);
    Box(c[0].x, c[0].y, c[2].x, c[2].y)
  }

  /** Centre and extent are recovered from the corners: converting a box to
      centre/extent form and back to corners gives the box's own corners. */
  lemma {:induction false} CornersOfBoxCenter(b: Box)
    ensures var c := GetRectangleCorners((b.xmin + b.xmax) / 2.0, (b.ymin + b.ymax) / 2.0,
                                         b.xmax - b.xmin, b.ymax - b.ymin);
            c == [Point(b.xmin, b.ymin), Point(b.xmax, b.ymin), Point(b.xmax, b.ymax), Point(b.xmin, b.ymax)]
  {
    var c := GetRectangleCorners((b.xmin + b.xmax) / 2.0, (b.ymin + b.ymax) / 2.0,
                                 b.xmax - b.xmin, b.ymax - b.ymin);
    assert c[0] == Point(b.xmin, b.ymin);
    assert c[2] == Point(b.xmax, b.ymax);
  }
}

=== FILE: glyph.dfy ===
/** One rotated digit glyph: the random draws that choose it, and the
    bookkeeping that turns the rasterizer's bounding box of the rotated
    image into the glyph's extent and centre.

    Rendering, rotation and the bounding-box search are done by the raster
    library; its answer enters the model as the `bbox` field of a draw.
 */
module Glyph {
  import opened Canvas
  import opened Results
  import opened Geometry

  /** The opaque-pixel bounding box of the rotated glyph image, in the image's
      own pixel frame: left and upper inclusive, right and lower exclusive. */
  datatype PixelBox = PixelBox(left: int, upper: int, right: int, lower: int)

  /** The raster library reports a non-empty box inside the image. */
  predicate ValidPixelBox(b: PixelBox) {
    0 <= b.left < b.right && 0 <= b.upper < b.lower
  }

  /** The draws for one glyph: the digit, the font size and the angle, and
      the raster library's answer for that combination (None when the rotated
      image has no opaque pixel). */
  datatype GlyphDraw = GlyphDraw(digit: int, fontSize: int, angle: int, bbox: Option<PixelBox>)

  /** Every draw is within its inclusive range, and a present box is valid. */
  predicate ValidGlyphDraw(g: GlyphDraw) {
    && 0 <= g.digit <= 9
    && FONT_MIN <= g.fontSize <= FONT_MAX
    && 0 <= g.angle <= ANGLE_MAX
    && (g.bbox.Some? ==> ValidPixelBox(g.bbox.value))
  }

  /** What the generator returns about a glyph besides its image: the centre
      of its opaque box relative to the image origin, the box's extent, and
      the rotation angle in degrees. */
  datatype Descriptor = Descriptor(xCenter: real, yCenter: real, width: int, height: int, angle: int)

  /** Extent and centre from the bounding box: the extent is the difference
      of the edges and the centre is the box's midpoint. */
  function DescriptorOf(b: PixelBox, angle: int): (d: Descriptor)
    requires ValidPixelBox(b)
    ensures d.width > 0 && d.height > 0
    ensures d.angle == angle
    // centre plus or minus half the extent gives back both edges
    ensures d.xCenter - d.width as real / 2.0 == b.left as real
    ensures d.xCenter + d.width as real / 2.0 == b.right as real
    ensures d.yCenter - d.height as real / 2.0 == b.upper as real
    ensures d.yCenter + d.height as real / 2.0 == b.lower as real
    // hence the centre lies strictly inside the box
    ensures b.left as real < d.xCenter < b.right as real
    ensures b.upper as real < d.yCenter < b.lower as real
  {
    var width := b.right - b.left;
    var height := b.lower - b.upper;
    Descriptor(b.left as real + width as real / 2.0, b.upper as real + height as real / 2.0,
               width, height, angle)
  }

  /** The descriptor part of `generate_rotated_random_number`, which fails
      when the rotated image is blank and its bounding box is missing. */
  function GenerateGlyph(g: GlyphDraw): (r: Result<Descriptor, Error>)
    requires ValidGlyphDraw(g)
    ensures r.Ok? <==> g.bbox.Some?
    ensures r.Err? ==> r.error == EmptyGlyph
    // the descriptor is the extent and midpoint of the reported box
    ensures g.bbox.Some? ==> r == Ok(DescriptorOf(g.bbox.value, g.angle))
  {
    match g.bbox
    case None => Err(EmptyGlyph)
    case Some(b) => Ok(DescriptorOf(b, g.angle))
  }

  /** The descriptor is an exact re-encoding of the bounding box: the
      rectangle with the descriptor's centre and extent has the box's four
      corners, in top-left, top-right, bottom-right, bottom-left order. */
  lemma {:induction false} DescriptorCornersAreBoxCorners(b: PixelBox, angle: int)
    requires ValidPixelBox(b)
    ensures var d := DescriptorOf(b, angle);
            GetRectangleCorners(d.xCenter, d.yCenter, d.width as real, d.height as real)
            == [ Point(b.left as real, b.upper as real), Point(b.right as real, b.upper as real),
                 Point(b.right as real, b.lower as real), Point(b.left as real, b.lower as real) ]
  {
    var d := DescriptorOf(b, angle);
    var c := GetRectangleCorners(d.xCenter, d.yCenter, d.width as real, d.height as real);
    assert c[0] == Point(b.left as real, b.upper as real);
    assert c[2] == Point(b.right as real, b.lower as real);
  }
}

=== FILE: labels.dfy ===
/** The annotation normaliser: each recorded annotation becomes one line of
    the per-image label file, with centre and extent as fractions of the
    canvas clamped to [0, 1] and the angle as a fraction of a full turn.

    Writing the file and printing the numbers as decimal text are left out;
    a line is modelled as its sequence of fields.
 */
module Labels {
  import opened Canvas
  import opened Results
  import opened Glyph
  import opened Scene

  datatype NormalizedAnnotation =
    NormalizedAnnotation(digit: int, xCenter: real, yCenter: real, width: real, height: real, angle: real)

  /** `min(max(v, 0), 1)`. */
  function Clamp01(v: real): (r: real)
    ensures 0.0 <= r <= 1.0
    // values already in [0, 1] pass unchanged, the rest go to the nearer end
    ensures 0.0 <= v <= 1.0 ==> r == v
    ensures v < 0.0 ==> r == 0.0
    ensures v > 1.0 ==> r == 1.0
  {
    var low := if v >= 0.0 then v else 0.0;
    if low <= 1.0 then low else 1.0
  }

  /** Clamping twice is clamping once. */
  lemma ClampIdempotent(v: real)
    ensures Clamp01(Clamp01(v)) == Clamp01(v)
  {
  }

  /** Clamping keeps the order of its inputs. */
  lemma ClampMonotone(u: real, v: real)
    requires u <= v
    ensures Clamp01(u) <= Clamp01(v)
  {
  }

  /** The normalisation of one annotation. The x centre and width are divided
      by WIDTH, the y centre and height by HEIGHT, and those four are
      clamped; the angle is divided by 360 and not clamped. */
  function Normalize(a: Annotation): (n: NormalizedAnnotation)
    ensures n.digit == a.digit
    ensures 0.0 <= n.xCenter <= 1.0 && 0.0 <= n.yCenter <= 1.0
    ensures 0.0 <= n.width <= 1.0 && 0.0 <= n.height <= 1.0
    // inside the canvas the fraction scales back to the pixel value
    ensures 0.0 <= a.xCenter <= WIDTH as real ==> n.xCenter * WIDTH as real == a.xCenter
    ensures 0.0 <= a.yCenter <= HEIGHT as real ==> n.yCenter * HEIGHT as real == a.yCenter
    ensures 0 <= a.width <= WIDTH ==> n.width * WIDTH as real == a.width as real
    ensures 0 <= a.height <= HEIGHT ==> n.height * HEIGHT as real == a.height as real
    // below zero the fraction is clamped to 0, past the far edge to 1
    ensures a.xCenter < 0.0 ==> n.xCenter == 0.0
    ensures a.yCenter < 0.0 ==> n.yCenter == 0.0
    ensures a.width < 0 ==> n.width == 0.0
    ensures a.height < 0 ==> n.height == 0.0
    ensures a.xCenter > WIDTH as real ==> n.xCenter == 1.0
    ensures a.yCenter > HEIGHT as real ==> n.yCenter == 1.0
    ensures a.width > WIDTH ==> n.width == 1.0
    ensures a.height > HEIGHT ==> n.height == 1.0
    ensures n.angle * 360.0 == a.angle as real
  {
    NormalizedAnnotation(
      a.digit,
      Clamp01(a.xCenter / WIDTH as real),
      Clamp01(a.yCenter / HEIGHT as real),
      Clamp01(a.width as real / WIDTH as real),
      Clamp01(a.height as real / HEIGHT as real),
      a.angle as real / 360.0)
  }

  /** An angle from the inclusive draw range [0, 360] normalises into
      [0, 1]; the top of the range, 360, gives exactly 1. */
  lemma AngleFractionInUnitInterval(a: Annotation)
    requires 0 <= a.angle <= ANGLE_MAX
    ensures 0.0 <= Normalize(a).angle <= 1.0
    ensures a.angle == ANGLE_MAX ==> Normalize(a).angle == 1.0
    ensures a.angle < ANGLE_MAX ==> Normalize(a).angle < 1.0
  {
  }

  /** For every annotation the scene composer records, the width and height
      fractions are exact (never clamped), the centre fractions are strictly
      positive, and the angle fraction lies in [0, 1]. */
  lemma {:induction false} SceneAnnotationsNormalizeExactly(numNumbers: int, draws: seq<Draw>)
    requires |draws| == Attempts(numNumbers) && ValidDraws(draws)
    requires Compose(numNumbers, draws).Ok?
    ensures var anns := Compose(numNumbers, draws).value;
            forall i | 0 <= i < |anns| ::
              && Normalize(anns[i]).width * WIDTH as real == anns[i].width as real
              && Normalize(anns[i]).height * HEIGHT as real == anns[i].height as real
              && 0.0 < Normalize(anns[i]).xCenter && 0.0 < Normalize(anns[i]).yCenter
              && 0.0 <= Normalize(anns[i]).angle <= 1.0
  {
    var anns := Compose(numNumbers, draws).value;
    AnnotationsComeFromDraws([], draws);
    forall i | 0 <= i < |anns|
      ensures && Normalize(anns[i]).width * WIDTH as real == anns[i].width as real
              && Normalize(anns[i]).height * HEIGHT as real == anns[i].height as real
              && 0.0 < Normalize(anns[i]).xCenter && 0.0 < Normalize(anns[i]).yCenter
              && 0.0 <= Normalize(anns[i]).angle <= 1.0
    {
      var k :| 0 <= k < |draws| && Placed(draws[k]) == anns[i] && InMargins(draws[k]);
      assert 0 < anns[i].width <= WIDTH && 0 < anns[i].height <= HEIGHT;
      assert 0.0 < anns[i].xCenter && 0.0 < anns[i].yCenter;
    }
  }

  /** The clamp does not keep a label's box inside the unit square: the
      recorded box of `OverflowingDraw` reaches past the canvas edge while
      its centre does not, so neither fraction is clamped and the label's
      box reaches past 1. */
  lemma LabelBoxMayLeaveUnitSquare()
    ensures var n := Normalize(Compose(1, [OverflowingDraw()]).value[0]);
            n.xCenter + n.width / 2.0 > 1.0
  {
  }

  /** One field of a label line: the digit character or a number. */
  datatype Field = DigitChar(c: char) | Number(v: real)

  function DigitToChar(d: int): char
    requires 0 <= d <= 9
  {
    ('0' as int + d) as char
  }

  /** Reads a label line back: a digit character followed by five numbers. */
  function ParseLine(fields: seq<Field>): (r: Option<NormalizedAnnotation>)
    ensures r.Some? ==> |fields| == 6 && 0 <= r.value.digit <= 9
  {
    if |fields| == 6 && fields[0].DigitChar? && '0' <= fields[0].c <= '9'
       && fields[1].Number? && fields[2].Number? && fields[3].Number?
       && fields[4].Number? && fields[5].Number?
    then Some(NormalizedAnnotation(fields[0].c as int - '0' as int, fields[1].v, fields[2].v,
                                   fields[3].v, fields[4].v, fields[5].v))
    else None
  }

  /** The fields of one label line, in the fixed order digit, x centre,
      y centre, width, height, angle. */
  function Line(n: NormalizedAnnotation): (fields: seq<Field>)
    requires 0 <= n.digit <= 9
    ensures ParseLine(fields) == Some(n)
    ensures fields[0] == DigitChar(DigitToChar(n.digit))
  {
    [DigitChar(DigitToChar(n.digit)), Number(n.xCenter), Number(n.yCenter),
     Number(n.width), Number(n.height), Number(n.angle)]
  }

  /** The label file of one image: one line per annotation, in order. */
  function LabelLines(anns: seq<Annotation>): (lines: seq<seq<Field>>)
    requires forall i | 0 <= i < |anns| :: 0 <= anns[i].digit <= 9
    ensures |lines| == |anns|
    ensures forall i | 0 <= i < |anns| :: ParseLine(lines[i]) == Some(Normalize(anns[i]))
  {
    if |anns| == 0 then []
    else [Line(Normalize(anns[0]))] + LabelLines(anns[1..])
  }
}

=== FILE: results.dfy ===
/** Optional values and results that either carry a value or say why the
    computation failed. */
module Results {

  datatype Option<+T> = None | Some(value: T)

  datatype Result<+T, +E> = Ok(value: T) | Err(error: E)
}

=== FILE: scene.dfy ===
/** The scene composer: for each requested glyph, draw it and a top-left
    position inside the margins, skip it if the collision test fires against
    any earlier annotation, and otherwise record an annotation.

    The random draws and the raster library's bounding box for each attempt
    are given as a sequence of `Draw`s, one per attempt. Compositing the glyph
    image onto the background is left to the raster library and not modelled.

    The collision test is handed the stored annotation itself, not a box. After
    coercion to floats it reads the annotation's first four fields, so the
    "box" of an earlier annotation is (digit, xCenter, yCenter, width). The
    model keeps that reading; see `ReadAsBox`.
 */
module Scene {
  import opened Canvas
  import opened Results
  import opened Geometry
  import opened Glyph

  /** One recorded placement: the digit, the absolute centre of the glyph's
      opaque box on the canvas, its extent, and the rotation angle. */
  datatype Annotation = Annotation(digit: int, xCenter: real, yCenter: real, width: int, height: int, angle: int)

  /** The draws of one attempt: the glyph's own draws and the position of the
      glyph image's top-left corner on the canvas. */
  datatype Draw = Draw(glyph: GlyphDraw, x: int, y: int)

  /** The position draw for an extent `extent` on a side of length `side` is
      over [MARGIN, side - extent - MARGIN], which is empty when the glyph
      is too large. */
  predicate RangeNonEmpty(side: int, extent: int) {
    MARGIN <= side - extent - MARGIN
  }

  /** The attempt gets past glyph generation and both position draws. */
  predicate Fits(d: Draw)
    requires ValidGlyphDraw(d.glyph)
  {
    && d.glyph.bbox.Some?
    && RangeNonEmpty(WIDTH, DescriptorOf(d.glyph.bbox.value, d.glyph.angle).width)
    && RangeNonEmpty(HEIGHT, DescriptorOf(d.glyph.bbox.value, d.glyph.angle).height)
  }

  /** The descriptor of an attempt whose glyph has a bounding box. */
  function DescriptorOfDraw(d: Draw): Descriptor
    requires ValidGlyphDraw(d.glyph) && d.glyph.bbox.Some?
  {
    DescriptorOf(d.glyph.bbox.value, d.glyph.angle)
  }

  /** The glyph's top-left corner keeps the margin to every canvas edge, its
      extent included. */
  predicate InMargins(d: Draw)
    requires ValidGlyphDraw(d.glyph) && d.glyph.bbox.Some?
  {
    && MARGIN <= d.x <= WIDTH - DescriptorOfDraw(d).width - MARGIN
    && MARGIN <= d.y <= HEIGHT - DescriptorOfDraw(d).height - MARGIN
  }

  /** Each draw is within its range: the glyph draws always, and a position
      whenever its range is not empty (when it is empty the draw raises and
      no position exists). */
  predicate ValidDraw(d: Draw) {
    && ValidGlyphDraw(d.glyph)
    && (d.glyph.bbox.Some? && RangeNonEmpty(WIDTH, DescriptorOfDraw(d).width) ==>
          MARGIN <= d.x <= WIDTH - DescriptorOfDraw(d).width - MARGIN)
    && (d.glyph.bbox.Some? && RangeNonEmpty(HEIGHT, DescriptorOfDraw(d).height) ==>
          MARGIN <= d.y <= HEIGHT - DescriptorOfDraw(d).height - MARGIN)
  }

  predicate ValidDraws(draws: seq<Draw>) {
    forall k | 0 <= k < |draws| :: ValidDraw(draws[k])
  }

  /** The candidate box (x, y, x + width, y + height) tested for collision. */
  function Candidate(d: Draw): (b: Box)
    requires ValidDraw(d) && Fits(d)
    ensures WellFormed(b)
    // the candidate box lies inside the canvas, margins kept
    ensures MARGIN as real <= b.xmin && b.xmax <= (WIDTH - MARGIN) as real
    ensures MARGIN as real <= b.ymin && b.ymax <= (HEIGHT - MARGIN) as real
  {
    var desc := DescriptorOfDraw(d);
    Box(d.x as real, d.y as real, (d.x + desc.width) as real, (d.y + desc.height) as real)
  }

  /** The annotation recorded for an accepted attempt: the absolute centre is
      the top-left position plus the descriptor's centre. */
  function Placed(d: Draw): (a: Annotation)
    requires ValidDraw(d) && Fits(d)
    ensures a.digit == d.glyph.digit && a.angle == d.glyph.angle
    ensures a.width > 0 && a.height > 0
    // the centre lies inside the glyph's opaque box, placed at (x, y)
    ensures (d.x + d.glyph.bbox.value.left) as real < a.xCenter < (d.x + d.glyph.bbox.value.right) as real
    ensures (d.y + d.glyph.bbox.value.upper) as real < a.yCenter < (d.y + d.glyph.bbox.value.lower) as real
  {
    var desc := DescriptorOfDraw(d);
    Annotation(d.glyph.digit, d.x as real + desc.xCenter, d.y as real + desc.yCenter,
               desc.width, desc.height, desc.angle)
  }

  /** What the collision test sees when given a stored annotation: its first
      four fields coerced to floats, the digit character read as its value. */
  function ReadAsBox(a: Annotation): Box {
    Box(a.digit as real, a.xCenter, a.yCenter, a.width as real)
  }

  /** The literal acceptance condition: the collision test is false against
      every earlier annotation, each read as `ReadAsBox` reads it. */
  predicate Accepted(cand: Box, anns: seq<Annotation>) {
    forall i | 0 <= i < |anns| :: !CheckCollision(cand, ReadAsBox(anns[i]))
  }

  /** The `any(...)` over the earlier annotations, scanned in order. */
  function CollidesWithAny(cand: Box, anns: seq<Annotation>): (r: bool)
    ensures r <==> !Accepted(cand, anns)
    ensures r <==> exists i | 0 <= i < |anns| :: CheckCollision(cand, ReadAsBox(anns[i]))
  {
    if |anns| == 0 then false
    else CheckCollision(cand, ReadAsBox(anns[0])) || CollidesWithAny(cand, anns[1..])
  }

  /** One attempt of the placement loop. */
  function Attempt(anns: seq<Annotation>, d: Draw): (r: Result<seq<Annotation>, Error>)
    requires ValidDraw(d)
    ensures r.Ok? <==> Fits(d)
    ensures d.glyph.bbox.None? ==> r == Err(EmptyGlyph)
    ensures d.glyph.bbox.Some? && !RangeNonEmpty(WIDTH, DescriptorOfDraw(d).width) ==> r == Err(EmptyRange(X))
    // the y draw is reached only once the x draw has succeeded
    ensures (d.glyph.bbox.Some? && RangeNonEmpty(WIDTH, DescriptorOfDraw(d).width)
             && !RangeNonEmpty(HEIGHT, DescriptorOfDraw(d).height)) ==> r == Err(EmptyRange(Y))
    // zero or one entry is appended and the earlier ones are untouched
    ensures r.Ok? ==> anns <= r.value && |anns| <= |r.value| <= |anns| + 1
    // appended exactly when the literal acceptance condition holds
    ensures r.Ok? ==> (|r.value| == |anns| + 1 <==> Accepted(Candidate(d), anns))
    ensures r.Ok? && |r.value| == |anns| + 1 ==> r.value[|anns|] == Placed(d) && InMargins(d)
  {
    match GenerateGlyph(d.glyph)
    case Err(e) => Err(e)
    case Ok(desc) =>
      if !RangeNonEmpty(WIDTH, desc.width) then Err(EmptyRange(X))
      else if !RangeNonEmpty(HEIGHT, desc.height) then Err(EmptyRange(Y))
      else if CollidesWithAny(Candidate(d), anns) then Ok(anns)
      else Ok(anns + [Placed(d)])
  }

  /** An attempt that fits and passes the acceptance condition appends
      exactly its own annotation. */
  lemma AttemptAppends(anns: seq<Annotation>, d: Draw)
    requires ValidDraw(d) && Fits(d) && Accepted(Candidate(d), anns)
    ensures Attempt(anns, d) == Ok(anns + [Placed(d)])
  {
    var r := Attempt(anns, d);
    assert r.value == anns + [Placed(d)];
  }

  /** An attempt that fits but fails the acceptance condition leaves the
      annotations as they were. */
  lemma AttemptSkips(anns: seq<Annotation>, d: Draw)
    requires ValidDraw(d) && Fits(d) && !Accepted(Candidate(d), anns)
    ensures Attempt(anns, d) == Ok(anns)
  {
    var r := Attempt(anns, d);
    assert r.value == anns;
  }

  /** Every attempt of the draw sequence gets past generation and both
      position draws. */
  predicate AllFit(draws: seq<Draw>)
    requires ValidDraws(draws)
  {
    forall k | 0 <= k < |draws| :: Fits(draws[k])
  }

  /** All attempts fit exactly when the first one does and all the rest do. */
  lemma AllFitCons(draws: seq<Draw>)
    requires ValidDraws(draws) && |draws| > 0
    ensures ValidDraws(draws[1..])
    ensures AllFit(draws) <==> Fits(draws[0]) && AllFit(draws[1..])
  {
  }

  /** The placement loop from the annotations gathered so far over the
      remaining attempts; the first failing attempt aborts the whole call. */
  function ComposeFrom(anns: seq<Annotation>, draws: seq<Draw>): (r: Result<seq<Annotation>, Error>)
    requires ValidDraws(draws)
    ensures r.Ok? <==> AllFit(draws)
    ensures r.Ok? ==> anns <= r.value && |r.value| <= |anns| + |draws|
    decreases |draws|
  {
    if |draws| == 0 then Ok(anns)
    else
      match Attempt(anns, draws[0])
      case Err(e) => Err(e)
      case Ok(next) =>
        var r := ComposeFrom(next, draws[1..]);
        AllFitCons(draws);
        r
  }

  /** The number of loop iterations `range(num_numbers)` performs. */
  function Attempts(numNumbers: int): nat {
    if numNumbers < 0 then 0 else numNumbers
  }

  /** `overlay_rotated_numbers_on_background` without the image: one draw per
      requested glyph, and the list of annotations, or the error raised. */
  function Compose(numNumbers: int, draws: seq<Draw>): (r: Result<seq<Annotation>, Error>)
    requires |draws| == Attempts(numNumbers) && ValidDraws(draws)
    ensures numNumbers <= 0 ==> r == Ok([])
    ensures r.Ok? <==> AllFit(draws)
    ensures r.Ok? ==> |r.value| <= Attempts(numNumbers)
  {
    ComposeFrom([], draws)
  }

  /** Running the loop over a prefix of the attempts and then over the rest
      is the same as running it over all of them. */
  lemma {:induction false} ComposeSplit(anns: seq<Annotation>, draws: seq<Draw>, k: nat)
    requires ValidDraws(draws) && k <= |draws|
    ensures ValidDraws(draws[..k]) && ValidDraws(draws[k..])
    ensures ComposeFrom(anns, draws) ==
            match ComposeFrom(anns, draws[..k])
            case Err(e) => Err(e)
            case Ok(mid) => ComposeFrom(mid, draws[k..])
    decreases k
  {
    assert ValidDraws(draws[..k]) by {
      forall j | 0 <= j < k ensures ValidDraw(draws[..k][j]) { assert draws[..k][j] == draws[j]; }
    }
    assert ValidDraws(draws[k..]) by {
      forall j | 0 <= j < |draws| - k ensures ValidDraw(draws[k..][j]) { assert draws[k..][j] == draws[k + j]; }
    }
    if k == 0 {
      assert draws[..0] == [];
      assert draws[0..] == draws;
    } else {
      assert draws[..k][0] == draws[0];
      assert draws[..k][1..] == draws[1..][..k - 1];
      assert draws[k..] == draws[1..][k - 1..];
      assert ValidDraws(draws[1..]) by {
        forall j | 0 <= j < |draws| - 1 ensures ValidDraw(draws[1..][j]) { assert draws[1..][j] == draws[j + 1]; }
      }
      match Attempt(anns, draws[0])
      case Err(e) =>
      case Ok(next) =>
        ComposeSplit(next, draws[1..], k - 1);
    }
  }

  /** Later attempts never change or reorder earlier entries: the annotations
      produced by the first k attempts are a prefix of the final list. */
  lemma {:induction false} EarlierEntriesKept(numNumbers: int, draws: seq<Draw>, k: nat)
    requires |draws| == Attempts(numNumbers) && ValidDraws(draws) && k <= |draws|
    requires Compose(numNumbers, draws).Ok?
    ensures ValidDraws(draws[..k])
    ensures ComposeFrom([], draws[..k]).Ok?
    ensures ComposeFrom([], draws[..k]).value <= Compose(numNumbers, draws).value
    ensures |ComposeFrom([], draws[..k]).value| <= k
  {
    ComposeSplit([], draws, k);
  }

  /** Every recorded annotation comes from one attempt whose position kept
      the margins, and is exactly the annotation that attempt places. */
  lemma {:induction false} AnnotationsComeFromDraws(anns: seq<Annotation>, draws: seq<Draw>)
    requires ValidDraws(draws) && ComposeFrom(anns, draws).Ok?
    ensures AllFit(draws)
    ensures forall i | |anns| <= i < |ComposeFrom(anns, draws).value| ::
              exists k | 0 <= k < |draws| :: Placed(draws[k]) == ComposeFrom(anns, draws).value[i] && InMargins(draws[k])
    decreases |draws|
  {
    var r := ComposeFrom(anns, draws).value;
    if |draws| > 0 {
      AllFitCons(draws);
      var next := Attempt(anns, draws[0]).value;
      assert ComposeFrom(anns, draws) == ComposeFrom(next, draws[1..]);
      AnnotationsComeFromDraws(next, draws[1..]);
      forall i | |anns| <= i < |r|
        ensures exists k | 0 <= k < |draws| :: Placed(draws[k]) == r[i] && InMargins(draws[k])
      {
        if i < |next| {
          assert r[i] == next[i];
          assert Placed(draws[0]) == r[i] && InMargins(draws[0]);
        } else {
          var k :| 0 <= k < |draws[1..]| && Placed(draws[1..][k]) == r[i] && InMargins(draws[1..][k]);
          assert draws[1..][k] == draws[k + 1];
        }
      }
    }
  }

  /** The box an annotation records (centre plus or minus half the extent) is
      the candidate box shifted by the origin of the glyph's opaque box inside
      its image: the margins are kept by the candidate, not by the record. */
  lemma RecordedBoxIsShiftedCandidate(d: Draw)
    requires ValidDraw(d) && Fits(d)
    ensures var a := Placed(d);
            var b := d.glyph.bbox.value;
            var c := Candidate(d);
            CenterBox(a.xCenter, a.yCenter, a.width as real, a.height as real)
            == Box(c.xmin + b.left as real, c.ymin + b.upper as real,
                   c.xmax + b.left as real, c.ymax + b.upper as real)
  {
  }

  /** An example draw: a digit 1 at font size 100 rotated by 270 degrees,
      with a 72 x 15 opaque box offset (53, 11) in its image, placed at the
      right end of its x range. */
  function OverflowingDraw(): Draw {
    Draw(GlyphDraw(1, 100, 270, Some(PixelBox(53, 11, 125, 26))), 548, 20)
  }

  /** An accepted attempt whose recorded box reaches past the right edge of
      the canvas while its centre stays on the canvas. */
  lemma RecordedBoxMayLeaveCanvas()
    ensures var d := OverflowingDraw();
            && ValidDraw(d) && Fits(d)
            && Compose(1, [d]) == Ok([Placed(d)])
            && 0.0 <= Placed(d).xCenter <= WIDTH as real
            && Placed(d).xCenter + Placed(d).width as real / 2.0 > WIDTH as real
  {
    var d := OverflowingDraw();
    assert ValidDraw(d) && Fits(d);
    var none: seq<Annotation> := [];
    AttemptAppends(none, d);
    assert none + [Placed(d)] == [Placed(d)];
    assert [d][1..] == [];
  }

  /** The `any(...)` scan as a loop that stops at the first collision. */
  method ScanForCollision(cand: Box, anns: seq<Annotation>) returns (collision: bool)
    ensures collision <==> !Accepted(cand, anns)
  {
    collision := false;
    var j := 0;
    while j < |anns| && !collision
      invariant 0 <= j <= |anns|
      invariant collision <==> exists m | 0 <= m < j :: CheckCollision(cand, ReadAsBox(anns[m]))
    {
      collision := CheckCollision(cand, ReadAsBox(anns[j]));
      j := j + 1;
    }
  }

  /** The placement loop as `overlay_rotated_numbers_on_background` writes
      it: one pass per requested glyph, an early exit on the first error, a
      skip on collision. */
  method OverlayRotatedNumbers(numNumbers: int, draws: seq<Draw>) returns (r: Result<seq<Annotation>, Error>)
    requires |draws| == Attempts(numNumbers) && ValidDraws(draws)
    ensures r == Compose(numNumbers, draws)
    ensures r.Ok? ==> |r.value| <= Attempts(numNumbers)
  {
    var anns: seq<Annotation> := [];
    var i := 0;
    while i < |draws|
      invariant 0 <= i <= |draws|
      invariant ComposeFrom([], draws) == ComposeFrom(anns, draws[i..])
    {
      var d := draws[i];
      assert draws[i..][0] == d;
      assert draws[i..][1..] == draws[i + 1..];
      if d.glyph.bbox.None? {
        return Err(EmptyGlyph);
      }
      var desc := DescriptorOfDraw(d);
      if !RangeNonEmpty(WIDTH, desc.width) {
        return Err(EmptyRange(X));
      }
      if !RangeNonEmpty(HEIGHT, desc.height) {
        return Err(EmptyRange(Y));
      }
      var collision := ScanForCollision(Candidate(d), anns);
      if collision {
        AttemptSkips(anns, d);
      } else {
        AttemptAppends(anns, d);
        anns := anns + [Placed(d)];
      }
      i := i + 1;
    }
    assert draws[i..] == [];
    r := Ok(anns);
  }
}
